=== FILE: README.md ===
# QuickNotes note store, modelled in Dafny

QuickNotes is a browser-local note-taking application. Its core is the note
store in `src/contexts/AppContext.tsx`. The store holds the session user, the
list of every note, the search query and the dark-mode flag. A reducer over
tagged actions (`appReducer`) changes that state. The provider builds the
note lifecycle on top of it: create, update, delete, restore, pin, archive,
trash and tag edits. It also keeps a register/login check against a table of
credential rows and derives two views: the filtered, sorted note list and the
sorted set of tags. A second, small core is the set of string builders of
`src/components/Notes/ExportModal.tsx`: the plain-text export, the download
file names and the clipboard text.

The project has one module per concern:

- `Types` (`types.dfy`) holds the records of `src/types/index.ts`, plus the credential row and `Partial<Note>`/`Partial<User>` as records of options.
- `Reducer` (`reducer.dfy`) is `appReducer` and the `{ ...note, ...updates }` merge.
- `Operations` (`operations.dfy`) has each provider operation as a function of the state before the call, built from reducer actions as the provider dispatches them, with the lemmas that state what each operation guarantees.
- `Views` (`views.dfy`) holds `getFilteredNotes` and `getAllTags`, each with an independent statement of its result and the lemmas connecting the two.
- `Store` (`store.dfy`) is the provider as a class, `NoteStore`. Its field `state` is replaced by every `Dispatch`. Its field `users` is the credential table: `Register` appends to it and `UpdateProfile` assigns one of its rows. Every method is proved equal to its counterpart in `Operations`, `Reducer` or `Views`.
- `Export` (`export.dfy`) holds the export strings.
- `Collections` and `Text` (`collections.dfy`, `text.dfy`) hold the JavaScript built-ins these use, written once: `filter`, `map`, `flatMap`, `findIndex`, `Set` deduplication, the stable `sort`, `includes`, ASCII `toLowerCase`, and the default string order.

Timestamps are integers. The clock reading and the fresh id, which come from
`new Date()` and `generateId`, are parameters (`now`, `id`). `UPDATE_NOTE`
reads the clock while it is reduced, so in the model the action carries that
reading.

Behaviour of the code worth knowing, which the model keeps:

- `logout` empties the note list, the save effect writes the empty list back, and `login` loads nothing (`LogoutThenLoginHasNoNotes`).
- `createNote` substitutes `"Untitled"` only for the empty title. A blank but non-empty title is kept. The editor trims titles before calling.
- `togglePin`, `toggleArchive`, `addTag` and `removeTag` read the FIRST note with the id. `UPDATE_NOTE` then writes the derived value into EVERY note with that id. The lemmas state this exactly. For a list with distinct ids (kept by `CreateNoteKeepsIdsDistinct` when ids are fresh) it is the plain flip.
- The store does not enforce "never pinned and in the trash". `togglePin` can pin a trashed note (`TogglePinCanPinTrashedNote`). Only the note card hides the pin button in the trash view.

## Model

| member | source | states |
|---|---|---|
| Reducer.Merge | src/contexts/AppContext.tsx:59 | every key the update names takes the update's value and every other key keeps the note's; `updatedAt` is the clock reading even when the update names it; an empty update changes nothing else |
| Reducer.Reduce | src/contexts/AppContext.tsx:46-77 | `appReducer`; its per-action effects are stated by `Reducer.AddNoteEffect`, `Reducer.UpdateNoteEffect` and `Reducer.DeleteNoteEffect`, and by the `Store.NoteStore` methods' contracts for the other actions |
| Reducer.MergeTwice | src/contexts/AppContext.tsx:59 | spreading the same update twice equals spreading it once at the later time |
| Reducer.AddNoteEffect | src/contexts/AppContext.tsx:52-53 | `ADD_NOTE` puts the note in front of the unchanged list and changes nothing else |
| Reducer.UpdateNoteEffect | src/contexts/AppContext.tsx:54-62 | `UPDATE_NOTE` keeps length and order, leaves notes with another id unchanged, merges into notes with the id and stamps them `now`, and is the identity when no note has the id |
| Reducer.DeleteNoteEffect | src/contexts/AppContext.tsx:63-67 | `DELETE_NOTE` leaves no note with the id, keeps every other note as many times as before, and is the identity when no note has the id |
| Reducer.DeleteKeepsOrder | src/contexts/AppContext.tsx:66 | deletion distributes over concatenation, so the remaining notes keep their relative order |
| Operations.FindNote | src/contexts/AppContext.tsx:180 | `find` returns the first note with the id, and returns nothing iff no note has the id |
| Operations.NewNote | src/contexts/AppContext.tsx:146-158 | the created note has the given id, content and colour, no tags, all flags off, the session user as owner, both timestamps the one clock reading `now`, and title `"Untitled"` iff the given title is empty or `"Untitled"` |
| Operations.CreateNote | src/contexts/AppContext.tsx:143-161 | `createNote`; its effect is stated by `Operations.CreateNoteEffect` |
| Operations.CreateNoteEffect | src/contexts/AppContext.tsx:143-161 | with no session user nothing changes; otherwise exactly one new note is put in front of the unchanged list and nothing else changes |
| Operations.CreateNoteKeepsIdsDistinct | src/contexts/AppContext.tsx:146-147 | a fresh id keeps the note ids distinct |
| Operations.RestoreNote | src/contexts/AppContext.tsx:175-177 | `restoreNote`; its effect is stated by `Operations.RestoreNoteEffect` |
| Operations.TogglePin | src/contexts/AppContext.tsx:179-184 | `togglePin`; its effect is stated by `Operations.TogglePinEffect` |
| Operations.ToggleArchive | src/contexts/AppContext.tsx:186-191 | `toggleArchive`; its effect is stated by `Operations.ToggleArchiveEffect` |
| Operations.MoveToTrash | src/contexts/AppContext.tsx:193-195 | `moveToTrash`; its effect is stated by `Operations.MoveToTrashEffect` |
| Operations.MoveToTrashEffect | src/contexts/AppContext.tsx:193-195 | every note with the id ends up in the trash, unarchived and unpinned, with nothing else changed but `updatedAt` |
| Operations.RestoreNoteEffect | src/contexts/AppContext.tsx:175-177 | every note with the id ends up out of the trash and unarchived, with its pin kept |
| Operations.TogglePinEffect | src/contexts/AppContext.tsx:179-184 | the first note with the id has its pin flipped; every note with the id gets that value and no other change; without such a note nothing changes |
| Operations.ToggleArchiveEffect | src/contexts/AppContext.tsx:186-191 | the first note with the id has its archive flag flipped; every note with the id leaves the trash; without such a note nothing changes |
| Operations.FlagOperationsKeepArchiveTrashExclusive | src/contexts/AppContext.tsx:175-195 | trash, restore, pin and archive all preserve "no note is both archived and in the trash" |
| Operations.FlagOperationsKeepPinTrashExclusive | src/contexts/AppContext.tsx:175-195 | trash, restore and archive preserve "no note is both pinned and in the trash"; pinning preserves it when no note with the id is in the trash |
| Operations.TogglePinCanPinTrashedNote | src/contexts/AppContext.tsx:179-184 | a concrete state in which `togglePin` produces a pinned note in the trash |
| Operations.AddTag | src/contexts/AppContext.tsx:197-202 | `addTag`; its effect is stated by `Operations.AddTagEffect` |
| Operations.RemoveTag | src/contexts/AppContext.tsx:204-209 | `removeTag`; its effect is stated by `Operations.RemoveTagEffect` |
| Operations.AddTagEffect | src/contexts/AppContext.tsx:197-202 | nothing changes when no note has the id or the first one already has the tag; otherwise every note with the id gets the first one's tags followed by the tag |
| Operations.AddTagPresent | src/contexts/AppContext.tsx:199 | `addTag` of a tag the first note with the id already carries leaves the state unchanged |
| Operations.AddTagKeepsTagsDistinct | src/contexts/AppContext.tsx:197-202 | duplicate-free tag lists stay duplicate-free |
| Operations.AddTagIdempotent | src/contexts/AppContext.tsx:197-202 | calling `addTag` twice with the same tag equals calling it once |
| Operations.RemoveTagEffect | src/contexts/AppContext.tsx:204-209 | every note with the id gets the first note's tags without the tag, every other tag as often as before; afterwards the tag is in none of them |
| Operations.Register | src/contexts/AppContext.tsx:115-136 | `register`; its effect is stated by `Operations.RegisterEffect` |
| Operations.Login | src/contexts/AppContext.tsx:103-113 | `login`; its effect is stated by `Operations.LoginEffect` |
| Operations.WithoutPassword | src/contexts/AppContext.tsx:108 | the session record keeps the row's id, email, name, avatar and creation time; the password has no field in it |
| Operations.RegisterEffect | src/contexts/AppContext.tsx:115-136 | `register` fails and changes nothing iff some row has the email; on success it appends exactly one row and makes the password-free user the session user |
| Operations.RegisterSameEmailFails | src/contexts/AppContext.tsx:118-120 | a second registration with the same email fails, whatever the password and name |
| Operations.RegisterKeepsEmailsUnique | src/contexts/AppContext.tsx:118-130 | registration keeps the emails of the table distinct |
| Operations.LoginEffect | src/contexts/AppContext.tsx:103-113 | `login` succeeds iff some row matches email and password exactly; then the session user is the FIRST such row without its password, otherwise nothing changes |
| Operations.RegisterThenLogin | src/contexts/AppContext.tsx:103-136 | after a successful registration, logging in with the same email and password succeeds and yields the registered user |
| Operations.Logout | src/contexts/AppContext.tsx:138-141 | `logout` clears the session user and the note list and nothing else |
| Operations.LogoutThenLoginHasNoNotes | src/contexts/AppContext.tsx:103-141 | after `logout`, a `login` leaves the note list empty |
| Operations.MergeUser | src/contexts/AppContext.tsx:222 | every key the update names takes the update's value, every other key keeps the session user's |
| Operations.MergeCredential | src/contexts/AppContext.tsx:229 | every key the update names takes the update's value, every other key keeps the row's, and the password is kept |
| Operations.UpdateProfile | src/contexts/AppContext.tsx:219-232 | `updateProfile`; its effect is stated by `Operations.UpdateProfileEffect` |
| Operations.UpdateProfileEffect | src/contexts/AppContext.tsx:219-232 | without a session user nothing changes; otherwise the session user is merged, the first row with the old session id becomes that row merged with the update, password kept, and no other row changes |
| Operations.UpdateProfileCanDuplicateEmail | src/contexts/AppContext.tsx:226-229 | unlike `register`, `updateProfile` does not check that a new email is free: a concrete table with distinct emails gets two rows with the same email |
| Views.FilteredNotes | src/contexts/AppContext.tsx:234-263 | `getFilteredNotes`; its result is stated by `Views.FilteredNotesArePermutation` and `Views.FilteredNotesOrdered` |
| Views.NoteLeIsTotalPreorder | src/contexts/AppContext.tsx:258-262 | the comparator is total and transitive, so sorting is well defined |
| Views.FilteredNotesArePermutation | src/contexts/AppContext.tsx:234-263 | the view holds exactly the owned, in-mode, query-matching notes, each as often as in the list |
| Views.FilteredNotesQualify | src/contexts/AppContext.tsx:235-256 | every note in the view passes the ownership, mode and search tests |
| Views.FilteredNotesOwnedAndInView | src/contexts/AppContext.tsx:235-248 | with no session user the view is empty; every note in it is the session user's and satisfies the mode predicate |
| Views.MatchesQueryMeansSubstring | src/contexts/AppContext.tsx:251-255 | the search test holds iff the case-folded query is a substring of the title, the content or some tag |
| Views.FilteredNotesMatchQuery | src/contexts/AppContext.tsx:250-256 | with a non-empty query, every note in the view contains it, ignoring case, in title, content or a tag |
| Views.FilteredNotesOrdered | src/contexts/AppContext.tsx:258-262 | pinned notes come first, and within each group `updatedAt` does not increase |
| Views.LiveNotes | src/contexts/AppContext.tsx:266-267 | the notes scanned for tags are exactly the session user's notes outside the trash |
| Views.LiveTags | src/contexts/AppContext.tsx:268 | a tag is collected iff some such note carries it |
| Views.AllTags | src/contexts/AppContext.tsx:265-270 | `getAllTags`; its result is stated by `Views.AllTagsMembers`, `Views.AllTagsCounts` and `Views.AllTagsStrictlyIncreasing` |
| Views.AllTagsCounts | src/contexts/AppContext.tsx:265-270 | every collected tag appears exactly once in `getAllTags`, and nothing else does |
| Views.AllTagsStrictlyIncreasing | src/contexts/AppContext.tsx:269 | `getAllTags` is strictly increasing in string order |
| Views.AllTagsMembers | src/contexts/AppContext.tsx:265-270 | `getAllTags` holds exactly the tags of the session user's notes outside the trash |
| Text.Includes | src/contexts/AppContext.tsx:252-254 | `includes` is true iff the query occurs as a contiguous substring |
| Text.Lower | src/contexts/AppContext.tsx:252 | case folding maps an ASCII capital to its small letter and leaves every other character |
| Text.LowerStr | src/contexts/AppContext.tsx:252-254 | the case-folded string has the same length and each character is the folded character of the input at that position |
| Text.LexLeIsTotalPreorder | src/contexts/AppContext.tsx:269 | the default string order is total and transitive |
| Collections.Filter | src/contexts/AppContext.tsx:66 | `filter` keeps exactly the elements passing the test, each as often as before |
| Collections.FindIndex | src/contexts/AppContext.tsx:227 | `findIndex` returns the first index passing the test, or none iff no element passes |
| Collections.FindIndexAgrees | src/contexts/AppContext.tsx:180 | `find`/`findIndex` depend only on which positions pass the test, so an update that keeps every id keeps the first match |
| Collections.Overrides | src/contexts/AppContext.tsx:59 | the meaning of one key of an object spread: the patch's value when it names the key, the base's otherwise |
| Collections.Map | src/contexts/AppContext.tsx:57 | `map` keeps the length and puts the image of each element at its position |
| Collections.FlatMap | src/contexts/AppContext.tsx:268 | a value is in the result of `flatMap` iff some element's image holds it |
| Collections.Dedup | src/contexts/AppContext.tsx:269 | `[...new Set(s)]` holds each element of `s` exactly once |
| Collections.Sort | src/contexts/AppContext.tsx:258 | `sort` returns a permutation sorted by the comparator |
| Export.TextExport | src/components/Notes/ExportModal.tsx:15 | the text export is the title, a newline, exactly as many `=` as the title has characters, a blank line, the content, a blank line, `Created: `, the created date, a newline, `Updated: ` and the updated date |
| Export.Repeat | src/components/Notes/ExportModal.tsx:15 | the underline has the requested length and holds only `=` |
| Export.FileStem | src/components/Notes/ExportModal.tsx:21 | the download stem; stated by `Export.FileStemAt`, `Export.FileStemAlphabet` and `Export.FileStemIdempotent` |
| Export.TextFileName | src/components/Notes/ExportModal.tsx:21 | the text download's name; stated by `Export.FileNamesShareStem` |
| Export.PdfFileName | src/components/Notes/ExportModal.tsx:50 | the PDF download's name; stated by `Export.FileNamesShareStem` |
| Export.FileStemAt | src/components/Notes/ExportModal.tsx:21 | the stem is as long as the title; each position is the lower-cased letter or the digit if the title's character is in `[A-Za-z0-9]`, else `_` |
| Export.FileStemAlphabet | src/components/Notes/ExportModal.tsx:21 | the stem uses only `[a-z0-9_]` |
| Export.FileStemIdempotent | src/components/Notes/ExportModal.tsx:21 | sanitising a stem again leaves it unchanged |
| Export.FileNamesShareStem | src/components/Notes/ExportModal.tsx:21-50 | the text and PDF file names share the stem and differ only in `.txt`/`.pdf` |
| Export.ClipboardText | src/components/Notes/ExportModal.tsx:59 | the clipboard text is the title, a blank line and the content |
| Store.NoteStore.constructor | src/contexts/AppContext.tsx:36-42 | the initial state has no user, no notes, an empty query and no selected tags, with the host's dark-mode preference |
| Store.NoteStore.Dispatch | src/contexts/AppContext.tsx:80 | a dispatch replaces the state with the reducer's result |
| Store.NoteStore.Login | src/contexts/AppContext.tsx:103-113 | equals `Operations.Login`; succeeds iff a row matches email and password |
| Store.NoteStore.Register | src/contexts/AppContext.tsx:115-136 | equals `Operations.Register`; succeeds iff the email is free; keeps emails unique |
| Store.NoteStore.Logout | src/contexts/AppContext.tsx:138-141 | clears the session user and the note list |
| Store.NoteStore.CreateNote | src/contexts/AppContext.tsx:143-161 | equals `Operations.CreateNote`, with the default colour `#ffffff` |
| Store.NoteStore.UpdateNote | src/contexts/AppContext.tsx:163-165 | dispatches `UPDATE_NOTE` |
| Store.NoteStore.DeleteNote | src/contexts/AppContext.tsx:167-169 | dispatches `DELETE_NOTE` |
| Store.NoteStore.PermanentlyDeleteNote | src/contexts/AppContext.tsx:171-173 | the same as `deleteNote` |
| Store.NoteStore.RestoreNote | src/contexts/AppContext.tsx:175-177 | equals `Operations.RestoreNote`; keeps archive and trash exclusive |
| Store.NoteStore.TogglePin | src/contexts/AppContext.tsx:179-184 | equals `Operations.TogglePin`; keeps archive and trash exclusive |
| Store.NoteStore.ToggleArchive | src/contexts/AppContext.tsx:186-191 | equals `Operations.ToggleArchive`; keeps archive and trash exclusive |
| Store.NoteStore.MoveToTrash | src/contexts/AppContext.tsx:193-195 | equals `Operations.MoveToTrash`; keeps archive and trash exclusive |
| Store.NoteStore.AddTag | src/contexts/AppContext.tsx:197-202 | equals `Operations.AddTag`; keeps tag lists duplicate-free |
| Store.NoteStore.RemoveTag | src/contexts/AppContext.tsx:204-209 | equals `Operations.RemoveTag` |
| Store.NoteStore.SetSearchQuery | src/contexts/AppContext.tsx:211-213 | replaces the query and nothing else |
| Store.NoteStore.ToggleDarkMode | src/contexts/AppContext.tsx:215-217 | flips the dark-mode flag and nothing else |
| Store.NoteStore.UpdateProfile | src/contexts/AppContext.tsx:219-232 | equals `Operations.UpdateProfile`, assigning the row in place |
| Store.NoteStore.GetFilteredNotes | src/contexts/AppContext.tsx:234-263 | returns `Views.FilteredNotes` of the current state |
| Store.NoteStore.GetAllTags | src/contexts/AppContext.tsx:265-270 | returns `Views.AllTags` of the current state |

## Left out

- Persistence is not modelled. This covers loading the saved state on mount, `LOAD_STATE`'s partial merge, saving on every change, and reading and writing the users table in `localStorage`. It is I/O and JSON serialisation. The users table is an in-memory sequence, and the persistence round-trip property is not stated.
- `generateId`, `new Date().toISOString()` and `toLocaleString` are not modelled. They are a clock and a random source. Ids and integer timestamps are parameters, and the export dates are formatted strings passed in.
- React rendering, hooks, context plumbing, the `dark` class on the document and `matchMedia` are not modelled. The dark-mode preference is a constructor parameter.
- The Blob/anchor download, the asynchronous `navigator.clipboard` write and the jsPDF layout are not modelled. They are host APIs and a foreign library. Only the strings they receive are modelled.
- Reducer.UpdateNoteEffect: the source reads the clock inside the `map` callback of `UPDATE_NOTE`, once per note with the id, so notes sharing an id can get different `updatedAt` values. The model stamps every such note with one reading `now`. The same holds for the effect lemmas of `restoreNote`, `togglePin`, `toggleArchive`, `moveToTrash`, `addTag` and `removeTag`.
- Operations.NewNote: `createNote` reads the clock twice, for `createdAt` and for `updatedAt`, and the two readings can differ by a millisecond. The model uses one reading `now` for both.
- Text.Lower, Text.LowerStr: `toLowerCase` is modelled on ASCII letters only. The search match therefore does not fold non-ASCII letters as JavaScript does. The file stem is unaffected, because only ASCII letters, digits and `_` remain in it when it is lower-cased.
- Strings are sequences of Unicode scalar values. JavaScript counts UTF-16 code units, so for a character outside the Basic Multilingual Plane the source's underline, file stem and sort order differ from the model's.
- Collections.Sort, Views.FilteredNotesOrdered: `Views.FilteredNotesOrdered` states the order and `Views.FilteredNotesArePermutation` states the contents. The model's sort is stable, like the engine's, but no lemma states how notes with equal keys are ordered.
- "`updatedAt >= createdAt`" is not stated. The code does not maintain it: an update can set `createdAt`, and nothing orders clock readings.
- The text typed in the editor and trimmed there (`NoteEditor.tsx`, `NoteCard.tsx`) is the caller's business. The store operations are modelled for every argument.

=== FILE: collections.dfy ===
/** The array built-ins the note store relies on (`filter`, `map`, `flatMap`,
    `find`/`findIndex`, deduplication through a `Set`, and the stable
    `Array.prototype.sort`), written once over sequences. */
module Collections {

  datatype Option<+T> = None | Some(value: T) {
    /** The wrapped value, or `default` when there is none. */
    function GetOr(default: T): T {
      if Some? then value else default
    }
  }

  /** `r` is what `{ ...base, ...patch }` leaves in one key: the patch's
      value when the patch names the key, the base's otherwise. */
  predicate Overrides<T(==)>(patch: Option<T>, base: T, r: T) {
    (patch.Some? ==> r == patch.value) && (patch.None? ==> r == base)
  }

  /** `s.filter(p)`: the elements satisfying `p`, in their original order. */
  function Filter<T(!new)>(s: seq<T>, p: T -> bool): (r: seq<T>)
    ensures |r| <= |s|
    ensures forall x :: x in r <==> x in s && p(x)
    ensures forall x :: multiset(r)[x] == if p(x) then multiset(s)[x] else 0
  {
    if s == [] then []
    else
      assert s == [s[0]] + s[1..];
      (if p(s[0]) then [s[0]] else []) + Filter(s[1..], p)
  }

  /** Filtering distributes over concatenation, so the kept elements keep
      their relative order. */
  lemma {:induction false} FilterConcat<T(!new)>(a: seq<T>, b: seq<T>, p: T -> bool)
    ensures Filter(a + b, p) == Filter(a, p) + Filter(b, p)
  {
    if a == [] {
      assert a + b == b;
    } else {
      var c := a + b;
      assert c[0] == a[0] && c[1..] == a[1..] + b;
      FilterConcat(a[1..], b, p);
      if p(a[0]) {
        calc {
          Filter(c, p);
          [a[0]] + Filter(a[1..] + b, p);
          [a[0]] + (Filter(a[1..], p) + Filter(b, p));
          ([a[0]] + Filter(a[1..], p)) + Filter(b, p);
        }
      } else {
        assert Filter(c, p) == Filter(a[1..] + b, p);
      }
    }
  }

  /** Filtering with a predicate every element satisfies changes nothing. */
  lemma {:induction false} FilterAll<T(!new)>(s: seq<T>, p: T -> bool)
    requires forall i :: 0 <= i < |s| ==> p(s[i])
    ensures Filter(s, p) == s
  {
    if s != [] {
      FilterAll(s[1..], p);
    }
  }

  /** `s.map(f)`. */
  function Map<T, U>(s: seq<T>, f: T -> U): (r: seq<U>)
    ensures |r| == |s|
    ensures forall i :: 0 <= i < |s| ==> r[i] == f(s[i])
  {
    if s == [] then [] else [f(s[0])] + Map(s[1..], f)
  }

  /** `s.flatMap(f)`: an element is in the result iff it is in the image of
      some element of `s`. */
  function FlatMap<T, U(!new)>(s: seq<T>, f: T -> seq<U>): (r: seq<U>)
    ensures forall x :: x in r <==> exists y :: y in s && x in f(y)
  {
    if s == [] then []
    else
      var rest := FlatMap(s[1..], f);
      assert forall y :: y in s ==> y == s[0] || y in s[1..];
      f(s[0]) + rest
  }

  /** `s.findIndex(p)`, with `None` for -1: the first index whose element
      satisfies `p`. */
  function FindIndex<T>(s: seq<T>, p: T -> bool): (r: Option<nat>)
    ensures r.Some? ==> r.value < |s| && p(s[r.value])
    ensures r.Some? ==> forall j :: 0 <= j < r.value ==> !p(s[j])
    ensures r.None? <==> forall j :: 0 <= j < |s| ==> !p(s[j])
  {
    if s == [] then None
    else if p(s[0]) then Some(0)
    else
      match FindIndex(s[1..], p)
      case None => None
      case Some(k) => Some(k + 1)
  }

  /** `findIndex` depends only on which positions pass the test. */
  lemma {:induction false} FindIndexAgrees<T, U>(a: seq<T>, p: T -> bool, b: seq<U>, q: U -> bool)
    requires |a| == |b|
    requires forall i :: 0 <= i < |a| ==> p(a[i]) == q(b[i])
    ensures FindIndex(a, p) == FindIndex(b, q)
  {
    if a != [] && !p(a[0]) {
      FindIndexAgrees(a[1..], p, b[1..], q);
    }
  }

  /** `[...new Set(s)]`: each element once, in order of first occurrence. */
  function Dedup<T(==, !new)>(s: seq<T>): (r: seq<T>)
    ensures forall x :: multiset(r)[x] == if x in s then 1 else 0
  {
    if s == [] then []
    else
      var init, last := s[..|s| - 1], s[|s| - 1];
      assert s == init + [last];
      var r := Dedup(init);
      if last in r then r else r + [last]
  }

  /** A sequence in which each value occurs at most once has no two equal
      positions. */
  lemma DistinctFromMultiset<T(!new)>(s: seq<T>, i: nat, j: nat)
    requires forall x :: multiset(s)[x] <= 1
    requires i < j < |s|
    ensures s[i] != s[j]
  {
    RepeatedCountsTwice(s, i, j);
  }

  lemma RepeatedCountsTwice<T(!new)>(s: seq<T>, i: nat, j: nat)
    requires i < j < |s|
    ensures s[i] == s[j] ==> multiset(s)[s[i]] >= 2
  {
    assert s == s[..j] + s[j..];
    assert s[i] in s[..j] && s[j] in s[j..];
    assert multiset(s) == multiset(s[..j]) + multiset(s[j..]);
  }

  /** `le(a, b)` reads "a may stay before b": a comparator `cmp` gives
      `le(a, b) == (cmp(a, b) <= 0)`. The sort needs `le` total and
      transitive. */
  ghost predicate TotalPreorder<T(!new)>(le: (T, T) -> bool) {
    && (forall a, b :: le(a, b) || le(b, a))
    && (forall a, b, c :: le(a, b) && le(b, c) ==> le(a, c))
  }

  predicate SortedBy<T>(s: seq<T>, le: (T, T) -> bool) {
    forall i, j :: 0 <= i < j < |s| ==> le(s[i], s[j])
  }

  /** Inserts `x` in front of the first element it may precede; equal
      elements therefore keep their order (the sort is stable). */
  function Insert<T(!new)>(x: T, s: seq<T>, le: (T, T) -> bool): (r: seq<T>)
    requires TotalPreorder(le)
    requires SortedBy(s, le)
    ensures SortedBy(r, le)
    ensures multiset(r) == multiset(s) + multiset{x}
  {
    if s == [] then [x]
    else if le(x, s[0]) then [x] + s
    else
      var rest := Insert(x, s[1..], le);
      assert s == [s[0]] + s[1..];
      HeadBound(s[0], x, s[1..], rest, le);
      [s[0]] + rest
  }

  /** If `y` may precede `x` and every element of `s`, it may precede every
      element of a permutation of `s` plus `x`. */
  lemma HeadBound<T(!new)>(y: T, x: T, s: seq<T>, r: seq<T>, le: (T, T) -> bool)
    requires le(y, x)
    requires forall k :: 0 <= k < |s| ==> le(y, s[k])
    requires multiset(r) == multiset(s) + multiset{x}
    ensures forall k :: 0 <= k < |r| ==> le(y, r[k])
  {
    forall k | 0 <= k < |r|
      ensures le(y, r[k])
    {
      assert r[k] in multiset(r);
      if r[k] != x {
        assert r[k] in multiset(s);
        assert r[k] in s;
      }
    }
  }

  /** `s.sort(cmp)`: a sorted permutation of `s`. */
  function Sort<T(!new)>(s: seq<T>, le: (T, T) -> bool): (r: seq<T>)
    requires TotalPreorder(le)
    ensures SortedBy(r, le)
    ensures multiset(r) == multiset(s)
  {
    if s == [] then []
    else
      assert s == [s[0]] + s[1..];
      Insert(s[0], Sort(s[1..], le), le)
  }
}

=== FILE: export.dfy ===
/** The strings `src/components/Notes/ExportModal.tsx` builds: the plain-text
    export, the download file names and the clipboard text. The dates are
    passed in already formatted (`toLocaleString` belongs to the host). */
module Export {
  import opened Collections
  import opened Text
  import opened Types

  /** `c.repeat(n)` for a one-character string. */
  function Repeat(c: char, n: nat): (r: string)
    ensures |r| == n
    ensures forall i :: 0 <= i < n ==> r[i] == c
  {
    if n == 0 then "" else [c] + Repeat(c, n - 1)
  }

  /** The body of `exportAsText`: the title underlined with as many `=` as
      it has characters, a blank line, the content, a blank line and the two
      date lines. */
  function TextExport(n: Note, created: string, updated: string): (r: string)
    ensures var t, c := |n.title|, |n.content|;
      && |r| == 2 * t + c + |created| + |updated| + 24
      && r[..t] == n.title
      && r[t] == '\n'
      && (forall i :: t < i <= 2 * t ==> r[i] == '=')
      && r[2 * t + 1..2 * t + 3] == "\n\n"
      && r[2 * t + 3..2 * t + 3 + c] == n.content
      && r[2 * t + 3 + c..2 * t + 14 + c] == "\n\nCreated: "
      && r[2 * t + 14 + c..2 * t + 14 + c + |created|] == created
      && r[|r| - |updated| - 10..|r| - |updated|] == "\nUpdated: "
      && r[|r| - |updated|..] == updated
  {
    var underline := Repeat('=', |n.title|);
    var r := n.title + "\n" + underline + "\n\n" + n.content + "\n\nCreated: " + created + "\nUpdated: " + updated;
    var t, c := |n.title|, |n.content|;
    assert r[t + 1..2 * t + 1] == underline;
    r
  }

  /** A character the pattern `[^a-z0-9]` with the `i` flag leaves alone. */
  predicate IsAsciiAlnum(c: char) {
    IsUpper(c) || IsLower(c) || IsDigit(c)
  }

  /** `s.replace(/[^a-z0-9]/gi, '_')` */
  function ReplaceNonAlnum(s: string): string {
    Map(s, (c: char) => if IsAsciiAlnum(c) then c else '_')
  }

  /** The file name stem: `title.replace(/[^a-z0-9]/gi, '_').toLowerCase()`.
      After the replacement only ASCII letters, digits and `_` are left, so
      ASCII lower-casing is exactly what `toLowerCase` does to them. */
  function FileStem(title: string): string {
    LowerStr(ReplaceNonAlnum(title))
  }

  function TextFileName(title: string): string {
    FileStem(title) + ".txt"
  }

  function PdfFileName(title: string): string {
    FileStem(title) + ".pdf"
  }

  /** The stem is as long as the title; each letter or digit becomes its
      lower-case form and every other character becomes `_`. */
  lemma FileStemAt(title: string)
    ensures |FileStem(title)| == |title|
    ensures forall i :: 0 <= i < |title| ==>
      FileStem(title)[i] == if IsAsciiAlnum(title[i]) then Lower(title[i]) else '_'
  {
  }

  /** The stem uses only lower-case letters, digits and `_`. */
  lemma FileStemAlphabet(title: string)
    ensures forall i :: 0 <= i < |FileStem(title)| ==>
      var c := FileStem(title)[i]; IsLower(c) || IsDigit(c) || c == '_'
  {
    FileStemAt(title);
  }

  /** Sanitising a stem again changes nothing. */
  lemma FileStemIdempotent(title: string)
    ensures FileStem(FileStem(title)) == FileStem(title)
  {
    var stem := FileStem(title);
    FileStemAt(title);
    FileStemAt(stem);
    FileStemAlphabet(title);
    assert forall i :: 0 <= i < |stem| ==> FileStem(stem)[i] == stem[i];
  }

  /** The text and PDF downloads share their stem and differ only in the
      extension. */
  lemma FileNamesShareStem(title: string)
    ensures |TextFileName(title)| == |PdfFileName(title)| == |title| + 4
    ensures TextFileName(title)[..|title|] == PdfFileName(title)[..|title|] == FileStem(title)
    ensures TextFileName(title)[|title|..] == ".txt" && PdfFileName(title)[|title|..] == ".pdf"
  {
    FileStemAt(title);
  }

  /** `copyToClipboard`'s text: the title, a blank line, the content. */
  function ClipboardText(n: Note): (r: string)
    ensures |r| == |n.title| + 2 + |n.content|
    ensures r[..|n.title|] == n.title
    ensures r[|n.title|..|n.title| + 2] == "\n\n"
    ensures r[|n.title| + 2..] == n.content
  {
    n.title + "\n\n" + n.content
  }
}

=== FILE: operations.dfy ===
/** The operations `AppProvider` exposes (`src/contexts/AppContext.tsx`), each
    as a function of the state before the call, built from the reducer's
    actions the way the provider dispatches them. The methods of
    `Store.NoteStore` are proved equal to these; the lemmas here state what
    the operations guarantee. The clock and the id generator are arguments
    (`now`, `id`), and the registered-users table is an in-memory sequence. */
module Operations {
  import opened Collections
  import opened Types
  import Reducer

  // ---------------------------------------------------------------------
  // Looking a note up

  /** The index of the first note with this id (`findIndex`). */
  function FirstIndex(notes: seq<Note>, id: string): Option<nat> {
    FindIndex(notes, (n: Note) => n.id == id)
  }

  /** `state.notes.find(n => n.id === id)`: the first note with the id. */
  function FindNote(notes: seq<Note>, id: string): (r: Option<Note>)
    ensures r.None? <==> forall i :: 0 <= i < |notes| ==> notes[i].id != id
    ensures r.Some? ==> r.value.id == id && r.value in notes
    ensures r.Some? ==> FirstIndex(notes, id).Some? && r.value == notes[FirstIndex(notes, id).value]
  {
    match FirstIndex(notes, id)
    case None => None
    case Some(k) => Some(notes[k])
  }

  // ---------------------------------------------------------------------
  // Creating a note

  /** The record `createNote` builds: `title || 'Untitled'`, no tags, every
      flag off, owned by the session user, created and updated now. */
  function NewNote(owner: User, id: string, title: string, content: string, color: string, now: int): (n: Note)
    ensures n.id == id && n.userId == owner.id && n.content == content && n.color == color
    ensures n.tags == [] && !n.isPinned && !n.isArchived && !n.isInTrash && n.reminder == None
    ensures n.createdAt == now == n.updatedAt
    ensures n.title == Untitled <==> title == "" || title == Untitled
    ensures title != "" ==> n.title == title
  {
    Note(id, if title == "" then Untitled else title, content, color, [], false, false, false, None, now, now, owner.id)
  }

  /** `createNote`: nothing without a session user, else `ADD_NOTE`. */
  function CreateNote(s: AppState, id: string, title: string, content: string, color: string, now: int): AppState {
    if s.user.None? then s
    else Reducer.Reduce(s, Reducer.AddNote(NewNote(s.user.value, id, title, content, color, now)))
  }

  /** Without a session user `createNote` does nothing; otherwise exactly one
      new note is put in front and nothing else changes. */
  lemma CreateNoteEffect(s: AppState, id: string, title: string, content: string, color: string, now: int)
    ensures var r := CreateNote(s, id, title, content, color, now);
      && (s.user.None? ==> r == s)
      && (s.user.Some? ==>
            && r == s.(notes := r.notes)
            && |r.notes| == |s.notes| + 1
            && r.notes[1..] == s.notes
            && r.notes[0] == NewNote(s.user.value, id, title, content, color, now))
  {
  }

  /** A fresh id keeps the ids of the note list distinct. */
  lemma CreateNoteKeepsIdsDistinct(s: AppState, id: string, title: string, content: string, color: string, now: int)
    requires IdsDistinct(s.notes)
    requires forall i :: 0 <= i < |s.notes| ==> s.notes[i].id != id
    ensures IdsDistinct(CreateNote(s, id, title, content, color, now).notes)
  {
  }

  predicate IdsDistinct(notes: seq<Note>) {
    forall i, j :: 0 <= i < j < |notes| ==> notes[i].id != notes[j].id
  }

  // ---------------------------------------------------------------------
  // Flags

  /** `{ isInTrash: false, isArchived: false }` */
  const RestorePatch := NoChanges.(isInTrash := Some(false), isArchived := Some(false))

  /** `{ isInTrash: true, isArchived: false, isPinned: false }` */
  const TrashPatch := NoChanges.(isInTrash := Some(true), isArchived := Some(false), isPinned := Some(false))

  /** `{ isPinned: pinned }` */
  function PinPatch(pinned: bool): NotePatch {
    NoChanges.(isPinned := Some(pinned))
  }

  /** `{ isArchived: archived, isInTrash: false }` */
  function ArchivePatch(archived: bool): NotePatch {
    NoChanges.(isArchived := Some(archived), isInTrash := Some(false))
  }

  /** `{ tags: tags }` */
  function TagsPatch(tags: seq<string>): NotePatch {
    NoChanges.(tags := Some(tags))
  }

  function RestoreNote(s: AppState, id: string, now: int): AppState {
    Reducer.Reduce(s, Reducer.UpdateNote(id, RestorePatch, now))
  }

  function MoveToTrash(s: AppState, id: string, now: int): AppState {
    Reducer.Reduce(s, Reducer.UpdateNote(id, TrashPatch, now))
  }

  /** `togglePin`: reads the first note with the id and sends every note
      with that id the negation of its pin. */
  function TogglePin(s: AppState, id: string, now: int): AppState {
    match FindNote(s.notes, id)
    case None => s
    case Some(n) => Reducer.Reduce(s, Reducer.UpdateNote(id, PinPatch(!n.isPinned), now))
  }

  /** `toggleArchive`: like `togglePin` for the archive flag, and always
      takes the note out of the trash. */
  function ToggleArchive(s: AppState, id: string, now: int): AppState {
    match FindNote(s.notes, id)
    case None => s
    case Some(n) => Reducer.Reduce(s, Reducer.UpdateNote(id, ArchivePatch(!n.isArchived), now))
  }

  /** `moveToTrash` puts every note with the id in the trash, unarchived and
      unpinned; the rest of the list is untouched. */
  lemma MoveToTrashEffect(s: AppState, id: string, now: int)
    ensures var r := MoveToTrash(s, id, now);
      && r == s.(notes := r.notes)
      && |r.notes| == |s.notes|
      && (forall i :: 0 <= i < |s.notes| && s.notes[i].id != id ==> r.notes[i] == s.notes[i])
      && (forall i :: 0 <= i < |s.notes| && s.notes[i].id == id ==>
            && r.notes[i].isInTrash && !r.notes[i].isArchived && !r.notes[i].isPinned
            && r.notes[i] == s.notes[i].(isInTrash := true, isArchived := false, isPinned := false, updatedAt := now))
  {
  }

  /** `restoreNote` takes every note with the id out of both the trash and
      the archive, whatever it was before, and keeps its pin. */
  lemma RestoreNoteEffect(s: AppState, id: string, now: int)
    ensures var r := RestoreNote(s, id, now);
      && r == s.(notes := r.notes)
      && |r.notes| == |s.notes|
      && (forall i :: 0 <= i < |s.notes| && s.notes[i].id != id ==> r.notes[i] == s.notes[i])
      && (forall i :: 0 <= i < |s.notes| && s.notes[i].id == id ==>
            && !r.notes[i].isInTrash && !r.notes[i].isArchived
            && r.notes[i] == s.notes[i].(isInTrash := false, isArchived := false, updatedAt := now))
  {
  }

  /** `togglePin` flips the pin of the first note with the id (and gives
      every other note with that id the same new value); it changes no other
      flag, and nothing at all when no note has the id. */
  lemma TogglePinEffect(s: AppState, id: string, now: int)
    ensures var r := TogglePin(s, id, now);
      && (FirstIndex(s.notes, id).None? ==> r == s)
      && (FirstIndex(s.notes, id).Some? ==>
            var k := FirstIndex(s.notes, id).value;
            && r == s.(notes := r.notes)
            && |r.notes| == |s.notes|
            && r.notes[k].isPinned == !s.notes[k].isPinned
            && (forall i :: 0 <= i < |s.notes| && s.notes[i].id != id ==> r.notes[i] == s.notes[i])
            && (forall i :: 0 <= i < |s.notes| && s.notes[i].id == id ==>
                  r.notes[i] == s.notes[i].(isPinned := !s.notes[k].isPinned, updatedAt := now)))
  {
  }

  /** `toggleArchive` flips the archive flag of the first note with the id
      and takes every note with the id out of the trash. */
  lemma ToggleArchiveEffect(s: AppState, id: string, now: int)
    ensures var r := ToggleArchive(s, id, now);
      && (FirstIndex(s.notes, id).None? ==> r == s)
      && (FirstIndex(s.notes, id).Some? ==>
            var k := FirstIndex(s.notes, id).value;
            && r == s.(notes := r.notes)
            && |r.notes| == |s.notes|
            && r.notes[k].isArchived == !s.notes[k].isArchived
            && (forall i :: 0 <= i < |s.notes| && s.notes[i].id != id ==> r.notes[i] == s.notes[i])
            && (forall i :: 0 <= i < |s.notes| && s.notes[i].id == id ==>
                  && !r.notes[i].isInTrash
                  && r.notes[i] == s.notes[i].(isArchived := !s.notes[k].isArchived, isInTrash := false, updatedAt := now)))
  {
  }

  /** No note is both archived and in the trash. */
  predicate ArchiveTrashExclusive(notes: seq<Note>) {
    forall i :: 0 <= i < |notes| ==> !(notes[i].isArchived && notes[i].isInTrash)
  }

  /** No note is both pinned and in the trash. */
  predicate PinTrashExclusive(notes: seq<Note>) {
    forall i :: 0 <= i < |notes| ==> !(notes[i].isPinned && notes[i].isInTrash)
  }

  /** All four flag operations keep archive and trash exclusive. */
  lemma FlagOperationsKeepArchiveTrashExclusive(s: AppState, id: string, now: int)
    requires ArchiveTrashExclusive(s.notes)
    ensures ArchiveTrashExclusive(MoveToTrash(s, id, now).notes)
    ensures ArchiveTrashExclusive(RestoreNote(s, id, now).notes)
    ensures ArchiveTrashExclusive(TogglePin(s, id, now).notes)
    ensures ArchiveTrashExclusive(ToggleArchive(s, id, now).notes)
  {
    MoveToTrashEffect(s, id, now);
    RestoreNoteEffect(s, id, now);
    TogglePinEffect(s, id, now);
    ToggleArchiveEffect(s, id, now);
  }

  /** Trashing, restoring and archiving keep pin and trash exclusive;
      pinning does too as long as no note with the id is in the trash. */
  lemma FlagOperationsKeepPinTrashExclusive(s: AppState, id: string, now: int)
    requires PinTrashExclusive(s.notes)
    ensures PinTrashExclusive(MoveToTrash(s, id, now).notes)
    ensures PinTrashExclusive(RestoreNote(s, id, now).notes)
    ensures PinTrashExclusive(ToggleArchive(s, id, now).notes)
    ensures (forall i :: 0 <= i < |s.notes| && s.notes[i].id == id ==> !s.notes[i].isInTrash) ==>
              PinTrashExclusive(TogglePin(s, id, now).notes)
  {
    MoveToTrashEffect(s, id, now);
    RestoreNoteEffect(s, id, now);
    TogglePinEffect(s, id, now);
    ToggleArchiveEffect(s, id, now);
  }

  /** The store itself does not stop `togglePin` from pinning a note in the
      trash (only the note card hides the button there). */
  lemma TogglePinCanPinTrashedNote()
    ensures var n := Note("n", "t", "", DefaultColor, [], false, false, true, None, 0, 0, "u");
      var s := AppState(None, [n], false, "", []);
      && PinTrashExclusive(s.notes)
      && !PinTrashExclusive(TogglePin(s, "n", 1).notes)
  {
    var n := Note("n", "t", "", DefaultColor, [], false, false, true, None, 0, 0, "u");
    var s := AppState(None, [n], false, "", []);
    TogglePinEffect(s, "n", 1);
    assert FirstIndex(s.notes, "n") == Some(0);
  }

  // ---------------------------------------------------------------------
  // Tags

  /** `addTag`: appends the tag to the first note's list when it is not
      there yet, and writes that list to every note with the id. */
  function AddTag(s: AppState, noteId: string, tag: string, now: int): AppState {
    match FindNote(s.notes, noteId)
    case None => s
    case Some(n) =>
      if tag in n.tags then s
      else Reducer.Reduce(s, Reducer.UpdateNote(noteId, TagsPatch(n.tags + [tag]), now))
  }

  /** `removeTag`: drops every occurrence of the tag from the first note's
      list and writes that list to every note with the id. */
  function RemoveTag(s: AppState, noteId: string, tag: string, now: int): AppState {
    match FindNote(s.notes, noteId)
    case None => s
    case Some(n) => Reducer.Reduce(s, Reducer.UpdateNote(noteId, TagsPatch(Filter(n.tags, (t: string) => t != tag)), now))
  }

  predicate DistinctTags(n: Note) {
    forall i, j :: 0 <= i < j < |n.tags| ==> n.tags[i] != n.tags[j]
  }

  predicate AllTagsDistinct(notes: seq<Note>) {
    forall i :: 0 <= i < |notes| ==> DistinctTags(notes[i])
  }

  /** `addTag` changes nothing when no note has the id or the first one
      already has the tag; otherwise every note with the id gets the first
      one's tags followed by the new tag. */
  lemma AddTagEffect(s: AppState, noteId: string, tag: string, now: int)
    ensures var r := AddTag(s, noteId, tag, now);
      && (FirstIndex(s.notes, noteId).None? ==> r == s)
      && (FirstIndex(s.notes, noteId).Some? ==>
            var k := FirstIndex(s.notes, noteId).value;
            && (tag in s.notes[k].tags ==> r == s)
            && (tag !in s.notes[k].tags ==>
                  && r == s.(notes := r.notes)
                  && |r.notes| == |s.notes|
                  && (forall i :: 0 <= i < |s.notes| && s.notes[i].id != noteId ==> r.notes[i] == s.notes[i])
                  && (forall i :: 0 <= i < |s.notes| && s.notes[i].id == noteId ==>
                        r.notes[i] == s.notes[i].(tags := s.notes[k].tags + [tag], updatedAt := now))))
  {
  }

  /** Duplicate-free tag lists stay duplicate-free under `addTag`. */
  lemma AddTagKeepsTagsDistinct(s: AppState, noteId: string, tag: string, now: int)
    requires AllTagsDistinct(s.notes)
    ensures AllTagsDistinct(AddTag(s, noteId, tag, now).notes)
  {
    AddTagEffect(s, noteId, tag, now);
    var r := AddTag(s, noteId, tag, now);
    if k :| FirstIndex(s.notes, noteId) == Some(k) {
      var old_tags := s.notes[k].tags;
      if tag !in old_tags {
        forall i | 0 <= i < |r.notes|
          ensures DistinctTags(r.notes[i])
        {
          if s.notes[i].id == noteId {
            assert DistinctTags(s.notes[k]);
            assert r.notes[i].tags == old_tags + [tag];
          }
        }
      }
    }
  }

  /** Mapping a list without changing any id keeps the first index of an id. */
  lemma FirstIndexUnderUpdate(notes: seq<Note>, id: string, u: NotePatch, now: int)
    requires u.id.None?
    ensures FirstIndex(Reducer.UpdateMatching(notes, id, u, now), id) == FirstIndex(notes, id)
  {
    var r := Reducer.UpdateMatching(notes, id, u, now);
    var p := (n: Note) => n.id == id;
    forall i | 0 <= i < |notes|
      ensures p(notes[i]) == p(r[i])
    {
      assert r[i].id == notes[i].id;
    }
    FindIndexAgrees(notes, p, r, p);
  }

  /** Calling `addTag` twice with the same tag is the same as calling it
      once. */
  lemma AddTagIdempotent(s: AppState, noteId: string, tag: string, t1: int, t2: int)
    ensures AddTag(AddTag(s, noteId, tag, t1), noteId, tag, t2) == AddTag(s, noteId, tag, t1)
  {
    match FirstIndex(s.notes, noteId)
    case None =>
    case Some(k) =>
      if tag !in s.notes[k].tags {
        var u := TagsPatch(s.notes[k].tags + [tag]);
        var r := AddTag(s, noteId, tag, t1);
        assert r.notes == Reducer.UpdateMatching(s.notes, noteId, u, t1);
        FirstIndexUnderUpdate(s.notes, noteId, u, t1);
        var m := Reducer.Merge(s.notes[k], u, t1);
        assert r.notes[k] == m;
        assert m.tags == s.notes[k].tags + [tag];
        assert FindNote(r.notes, noteId) == Some(m);
        AddTagPresent(r, noteId, tag, t2);
      }
  }

  /** `addTag` of a tag the first note with the id already has changes nothing. */
  lemma AddTagPresent(s: AppState, noteId: string, tag: string, now: int)
    requires FindNote(s.notes, noteId).Some? && tag in FindNote(s.notes, noteId).value.tags
    ensures AddTag(s, noteId, tag, now) == s
  {
  }

  /** `removeTag` gives every note with the id the first note's tags without
      the removed one, each other tag as often as before; afterwards the tag
      is in none of them. */
  lemma RemoveTagEffect(s: AppState, noteId: string, tag: string, now: int)
    ensures var r := RemoveTag(s, noteId, tag, now);
      && (FirstIndex(s.notes, noteId).None? ==> r == s)
      && (FirstIndex(s.notes, noteId).Some? ==>
            var k := FirstIndex(s.notes, noteId).value;
            && r == s.(notes := r.notes)
            && |r.notes| == |s.notes|
            && (forall i :: 0 <= i < |s.notes| && s.notes[i].id != noteId ==> r.notes[i] == s.notes[i])
            && (forall i :: 0 <= i < |s.notes| && s.notes[i].id == noteId ==>
                  && tag !in r.notes[i].tags
                  && (forall t :: t != tag ==> multiset(r.notes[i].tags)[t] == multiset(s.notes[k].tags)[t])
                  && r.notes[i] == s.notes[i].(tags := Filter(s.notes[k].tags, (t: string) => t != tag), updatedAt := now)))
  {
    match FirstIndex(s.notes, noteId)
    case None =>
    case Some(k) =>
      var kept := Filter(s.notes[k].tags, (t: string) => t != tag);
      assert FindNote(s.notes, noteId) == Some(s.notes[k]);
      assert RemoveTag(s, noteId, tag, now) == Reducer.Reduce(s, Reducer.UpdateNote(noteId, TagsPatch(kept), now));
  }

  // ---------------------------------------------------------------------
  // Registration and session

  /** The session record: the row without its password. */
  function WithoutPassword(c: Credential): (u: User)
    ensures u.id == c.id && u.email == c.email && u.name == c.name
    ensures u.avatar == c.avatar && u.createdAt == c.createdAt
  {
    User(c.id, c.email, c.name, c.avatar, c.createdAt)
  }

  predicate EmailTaken(users: seq<Credential>, email: string) {
    exists c :: c in users && c.email == email
  }

  predicate EmailsUnique(users: seq<Credential>) {
    forall i, j :: 0 <= i < j < |users| ==> users[i].email != users[j].email
  }

  datatype Registration = Registration(ok: bool, users: seq<Credential>, state: AppState)

  /** `register`: refuses a taken email; otherwise appends the new row and
      makes its password-free copy the session user. */
  function Register(users: seq<Credential>, s: AppState, email: string, password: string, name: string,
                    id: string, now: int): Registration
  {
    if FindIndex(users, (c: Credential) => c.email == email).Some? then Registration(false, users, s)
    else
      var c := Credential(id, email, password, name, None, now);
      Registration(true, users + [c], Reducer.Reduce(s, Reducer.SetUser(Some(WithoutPassword(c)))))
  }

  /** `register` fails, changing nothing, iff the email is taken; on success
      it appends exactly one row and sets the session user, and nothing else
      in the state changes. */
  lemma RegisterEffect(users: seq<Credential>, s: AppState, email: string, password: string, name: string,
                       id: string, now: int)
    ensures var r := Register(users, s, email, password, name, id, now);
      && (r.ok <==> !EmailTaken(users, email))
      && (!r.ok ==> r.users == users && r.state == s)
      && (r.ok ==>
            && r.users == users + [Credential(id, email, password, name, None, now)]
            && r.state == s.(user := Some(User(id, email, name, None, now))))
  {
    var r := Register(users, s, email, password, name, id, now);
    if !r.ok {
      var k := FindIndex(users, (c: Credential) => c.email == email).value;
      assert users[k] in users;
    }
  }

  /** A second registration with the same email fails, whatever the other
      arguments. */
  lemma RegisterSameEmailFails(users: seq<Credential>, s: AppState, email: string,
                               p1: string, n1: string, id1: string, t1: int,
                               p2: string, n2: string, id2: string, t2: int)
    ensures var r := Register(users, s, email, p1, n1, id1, t1);
      !Register(r.users, r.state, email, p2, n2, id2, t2).ok
  {
    var r := Register(users, s, email, p1, n1, id1, t1);
    RegisterEffect(users, s, email, p1, n1, id1, t1);
    RegisterEffect(r.users, r.state, email, p2, n2, id2, t2);
    if r.ok {
      assert r.users[|users|].email == email;
      assert r.users[|users|] in r.users;
    }
  }

  /** Registration keeps emails unique in the table. */
  lemma RegisterKeepsEmailsUnique(users: seq<Credential>, s: AppState, email: string, password: string,
                                  name: string, id: string, now: int)
    requires EmailsUnique(users)
    ensures EmailsUnique(Register(users, s, email, password, name, id, now).users)
  {
    RegisterEffect(users, s, email, password, name, id, now);
    var r := Register(users, s, email, password, name, id, now);
    if r.ok {
      forall i | 0 <= i < |users|
        ensures r.users[i].email != email
      {
        assert users[i] in users;
      }
    }
  }

  /** `login`: the first row with both the email and the password, if any,
      becomes the session user without its password. */
  function Login(users: seq<Credential>, s: AppState, email: string, password: string): (bool, AppState) {
    match FindIndex(users, (c: Credential) => c.email == email && c.password == password)
    case None => (false, s)
    case Some(k) => (true, Reducer.Reduce(s, Reducer.SetUser(Some(WithoutPassword(users[k])))))
  }

  /** `login` succeeds iff some row matches both email and password exactly;
      on success the session user is a matching row without its password and
      nothing else changes, on failure nothing changes. */
  lemma LoginEffect(users: seq<Credential>, s: AppState, email: string, password: string)
    ensures var (ok, r) := Login(users, s, email, password);
      && (ok <==> exists c :: c in users && c.email == email && c.password == password)
      && (!ok ==> r == s)
      && (ok ==> exists c :: c in users && c.email == email && c.password == password &&
                   r == s.(user := Some(WithoutPassword(c))))
      && (forall k :: FindIndex(users, (c: Credential) => c.email == email && c.password == password) == Some(k) ==>
            k < |users| && r == s.(user := Some(WithoutPassword(users[k]))))
  {
    match FindIndex(users, (c: Credential) => c.email == email && c.password == password)
    case None =>
    case Some(k) =>
      assert users[k] in users;
  }

  /** After a successful registration, logging in with the same email and
      password succeeds and yields the registered user. */
  lemma RegisterThenLogin(users: seq<Credential>, s: AppState, email: string, password: string,
                          name: string, id: string, now: int)
    requires Register(users, s, email, password, name, id, now).ok
    ensures var r := Register(users, s, email, password, name, id, now);
      Login(r.users, r.state, email, password) == (true, s.(user := Some(User(id, email, name, None, now))))
  {
    RegisterEffect(users, s, email, password, name, id, now);
    var r := Register(users, s, email, password, name, id, now);
    var p := (c: Credential) => c.email == email && c.password == password;
    forall j | 0 <= j < |users|
      ensures !p(r.users[j])
    {
      assert users[j] in users;
    }
    assert p(r.users[|users|]);
    assert FindIndex(r.users, p) == Some(|users|);
  }

  /** `logout` clears the session user and the note list. */
  function Logout(s: AppState): (r: AppState)
    ensures r == s.(user := None, notes := [])
  {
    Reducer.Reduce(Reducer.Reduce(s, Reducer.SetUser(None)), Reducer.SetNotes([]))
  }

  /** Logging out and in again leaves the note list empty: `login` does not
      load any notes back. */
  lemma LogoutThenLoginHasNoNotes(users: seq<Credential>, s: AppState, email: string, password: string)
    ensures Login(users, Logout(s), email, password).1.notes == []
  {
  }

  /** `{ ...user, ...updates }` */
  function MergeUser(u: User, p: UserPatch): (m: User)
    ensures Overrides(p.id, u.id, m.id) && Overrides(p.email, u.email, m.email) && Overrides(p.name, u.name, m.name)
    ensures Overrides(p.avatar, u.avatar, m.avatar) && Overrides(p.createdAt, u.createdAt, m.createdAt)
  {
    User(p.id.GetOr(u.id), p.email.GetOr(u.email), p.name.GetOr(u.name), p.avatar.GetOr(u.avatar),
         p.createdAt.GetOr(u.createdAt))
  }

  /** `{ ...users[i], ...updates }`: the password is kept. */
  function MergeCredential(c: Credential, p: UserPatch): (m: Credential)
    ensures Overrides(p.id, c.id, m.id) && Overrides(p.email, c.email, m.email) && Overrides(p.name, c.name, m.name)
    ensures Overrides(p.avatar, c.avatar, m.avatar) && Overrides(p.createdAt, c.createdAt, m.createdAt)
    ensures m.password == c.password
  {
    Credential(p.id.GetOr(c.id), p.email.GetOr(c.email), c.password, p.name.GetOr(c.name),
               p.avatar.GetOr(c.avatar), p.createdAt.GetOr(c.createdAt))
  }

  /** `updateProfile`: without a session user nothing; else the merged user
      becomes the session user and the first row with the session user's
      (old) id is merged too. */
  function UpdateProfile(users: seq<Credential>, s: AppState, p: UserPatch): (seq<Credential>, AppState) {
    if s.user.None? then (users, s)
    else
      var s' := Reducer.Reduce(s, Reducer.SetUser(Some(MergeUser(s.user.value, p))));
      match FindIndex(users, (c: Credential) => c.id == s.user.value.id)
      case None => (users, s')
      case Some(k) => (users[k := MergeCredential(users[k], p)], s')
  }

  /** A profile update changes only the session user and at most one row,
      the first with the session user's id, whose password it keeps. */
  lemma UpdateProfileEffect(users: seq<Credential>, s: AppState, p: UserPatch)
    ensures var (us, r) := UpdateProfile(users, s, p);
      && (s.user.None? ==> us == users && r == s)
      && (s.user.Some? ==>
            && r == s.(user := Some(MergeUser(s.user.value, p)))
            && |us| == |users|
            && (forall i :: 0 <= i < |users| && users[i].id != s.user.value.id ==> us[i] == users[i])
            && (forall i :: 0 <= i < |users| ==> us[i].password == users[i].password)
            && (forall i :: 0 <= i < |users| && us[i] != users[i] ==>
                  && users[i].id == s.user.value.id
                  && us[i] == MergeCredential(users[i], p)
                  && forall j :: 0 <= j < i ==> users[j].id != s.user.value.id)
            && (forall k :: FindIndex(users, (c: Credential) => c.id == s.user.value.id) == Some(k) ==>
                  k < |users| && us[k] == MergeCredential(users[k], p)))
  {
    if s.user.Some? {
      match FindIndex(users, (c: Credential) => c.id == s.user.value.id)
      case None =>
      case Some(k) =>
        assert UpdateProfile(users, s, p).0 == users[k := MergeCredential(users[k], p)];
    }
  }

  /** Unlike `register`, `updateProfile` does not check that a new email is
      free: here it gives two rows the same email. */
  lemma UpdateProfileCanDuplicateEmail()
    ensures var a := Credential("a", "a@x", "pa", "A", None, 0);
      var b := Credential("b", "b@x", "pb", "B", None, 0);
      var s := AppState(Some(WithoutPassword(b)), [], false, "", []);
      && EmailsUnique([a, b])
      && !EmailsUnique(UpdateProfile([a, b], s, UserPatch(None, Some("a@x"), None, None, None)).0)
  {
    var a := Credential("a", "a@x", "pa", "A", None, 0);
    var b := Credential("b", "b@x", "pb", "B", None, 0);
    var s := AppState(Some(WithoutPassword(b)), [], false, "", []);
    var p := UserPatch(None, Some("a@x"), None, None, None);
    assert FindIndex([a, b], (c: Credential) => c.id == "b") == Some(1);
    var us := UpdateProfile([a, b], s, p).0;
    assert us == [a, MergeCredential(b, p)];
    assert us[0].email == us[1].email;
  }
}

=== FILE: reducer.dfy ===
/** `appReducer` of `src/contexts/AppContext.tsx`: every state change of the
    store is one of these actions applied to the current state. */
module Reducer {
  import opened Collections
  import opened Types

  /** The tagged actions. `UPDATE_NOTE` reads the clock while it is reduced;
      that reading travels in the action as `now`. `LOAD_STATE` (merging a
      state parsed from storage) is not modelled. */
  datatype Action =
    | SetUser(user: Option<User>)
    | SetNotes(notes: seq<Note>)
    | AddNote(note: Note)
    | UpdateNote(id: string, updates: NotePatch, now: int)
    | DeleteNote(id: string)
    | SetSearchQuery(query: string)
    | ToggleDarkMode

  /** `{ ...note, ...updates, updatedAt: now }`: every key the update names
      replaces the note's, and the timestamp is the clock's whatever the
      update says. */
  function Merge(n: Note, u: NotePatch, now: int): (m: Note)
    ensures m.updatedAt == now
    ensures Overrides(u.id, n.id, m.id) && Overrides(u.title, n.title, m.title)
    ensures Overrides(u.content, n.content, m.content) && Overrides(u.color, n.color, m.color)
    ensures Overrides(u.tags, n.tags, m.tags) && Overrides(u.isPinned, n.isPinned, m.isPinned)
    ensures Overrides(u.isArchived, n.isArchived, m.isArchived) && Overrides(u.isInTrash, n.isInTrash, m.isInTrash)
    ensures Overrides(u.reminder, n.reminder, m.reminder) && Overrides(u.createdAt, n.createdAt, m.createdAt)
    ensures Overrides(u.userId, n.userId, m.userId)
    ensures u == NoChanges ==> m == n.(updatedAt := now)
  {
    Note(
      u.id.GetOr(n.id),
      u.title.GetOr(n.title),
      u.content.GetOr(n.content),
      u.color.GetOr(n.color),
      u.tags.GetOr(n.tags),
      u.isPinned.GetOr(n.isPinned),
      u.isArchived.GetOr(n.isArchived),
      u.isInTrash.GetOr(n.isInTrash),
      u.reminder.GetOr(n.reminder),
      u.createdAt.GetOr(n.createdAt),
      now,
      u.userId.GetOr(n.userId))
  }

  /** Spreading the same update again only moves the timestamp. */
  lemma MergeTwice(n: Note, u: NotePatch, t1: int, t2: int)
    ensures Merge(Merge(n, u, t1), u, t2) == Merge(n, u, t2)
  {
  }

  /** The `map` of `UPDATE_NOTE`: merge into each note with that id. */
  function UpdateMatching(notes: seq<Note>, id: string, u: NotePatch, now: int): seq<Note> {
    Map(notes, (n: Note) => if n.id == id then Merge(n, u, now) else n)
  }

  /** The `filter` of `DELETE_NOTE`: keep each note with another id. */
  function WithoutId(notes: seq<Note>, id: string): seq<Note> {
    Filter(notes, (n: Note) => n.id != id)
  }

  function Reduce(s: AppState, a: Action): AppState {
    match a
    case SetUser(u) => s.(user := u)
    case SetNotes(ns) => s.(notes := ns)
    case AddNote(n) => s.(notes := [n] + s.notes)
    case UpdateNote(id, u, now) => s.(notes := UpdateMatching(s.notes, id, u, now))
    case DeleteNote(id) => s.(notes := WithoutId(s.notes, id))
    case SetSearchQuery(q) => s.(searchQuery := q)
    case ToggleDarkMode => s.(darkMode := !s.darkMode)
  }

  /** `ADD_NOTE` puts the note in front of the others. */
  lemma AddNoteEffect(s: AppState, n: Note)
    ensures var r := Reduce(s, AddNote(n));
      && r.notes[0] == n && r.notes[1..] == s.notes
      && r == s.(notes := r.notes)
  {
  }

  /** `UPDATE_NOTE` keeps the length and order of the list, leaves notes
      with another id alone, merges into those with the id and stamps them
      with `now`; with no note of that id it changes nothing. */
  lemma UpdateNoteEffect(s: AppState, id: string, u: NotePatch, now: int)
    ensures var r := Reduce(s, UpdateNote(id, u, now));
      && r == s.(notes := r.notes)
      && |r.notes| == |s.notes|
      && (forall i :: 0 <= i < |s.notes| && s.notes[i].id != id ==> r.notes[i] == s.notes[i])
      && (forall i :: 0 <= i < |s.notes| && s.notes[i].id == id ==>
            r.notes[i] == Merge(s.notes[i], u, now) && r.notes[i].updatedAt == now)
      && ((forall i :: 0 <= i < |s.notes| ==> s.notes[i].id != id) ==> r.notes == s.notes)
  {
  }

  /** `DELETE_NOTE` removes every note with the id and keeps each other note
      as often as it was there; with no note of that id it changes nothing. */
  lemma DeleteNoteEffect(s: AppState, id: string)
    ensures var r := Reduce(s, DeleteNote(id));
      && r == s.(notes := r.notes)
      && (forall n :: n in r.notes ==> n.id != id)
      && (forall n: Note :: n.id != id ==> multiset(r.notes)[n] == multiset(s.notes)[n])
      && ((forall i :: 0 <= i < |s.notes| ==> s.notes[i].id != id) ==> r.notes == s.notes)
  {
    if forall i :: 0 <= i < |s.notes| ==> s.notes[i].id != id {
      FilterAll(s.notes, (n: Note) => n.id != id);
    }
  }

  /** Deleting keeps the remaining notes in their relative order: the
      result on a concatenation is the concatenation of the results. */
  lemma DeleteKeepsOrder(a: seq<Note>, b: seq<Note>, id: string)
    ensures WithoutId(a + b, id) == WithoutId(a, id) + WithoutId(b, id)
  {
    FilterConcat(a, b, (n: Note) => n.id != id);
  }
}

=== FILE: store.dfy ===
/** `AppProvider` of `src/contexts/AppContext.tsx` as an object: `state` is the
    reducer's state, replaced by every dispatch, and `users` is the
    registered-users table that `register` pushes onto and `updateProfile`
    writes in place. Each operation does what the provider does, step by
    step, and is proved equal to its counterpart in `Operations`, `Reducer`
    or `Views`, where its guarantees are stated. */
module Store {
  import opened Collections
  import opened Types
  import Reducer
  import Ops = Operations
  import Views

  class NoteStore {
    var state: AppState
    var users: seq<Credential>

    /** `initialState`, with the host's dark-mode preference and the table
        of already registered users. */
    constructor (prefersDark: bool, registered: seq<Credential>)
      ensures state == AppState(None, [], prefersDark, "", [])
      ensures users == registered
    {
      state := AppState(None, [], prefersDark, "", []);
      users := registered;
    }

    /** `dispatch`: the reducer replaces the state. */
    method Dispatch(a: Reducer.Action)
      modifies this`state
      ensures state == Reducer.Reduce(old(state), a)
    {
      state := Reducer.Reduce(state, a);
    }

    method Login(email: string, password: string) returns (ok: bool)
      modifies this`state
      ensures (ok, state) == Ops.Login(users, old(state), email, password)
      ensures ok <==> exists c :: c in users && c.email == email && c.password == password
    {
      Ops.LoginEffect(users, state, email, password);
      var k := FindIndex(users, (c: Credential) => c.email == email && c.password == password);
      if k.Some? {
        Dispatch(Reducer.SetUser(Some(Ops.WithoutPassword(users[k.value]))));
        ok := true;
      } else {
        ok := false;
      }
    }

    method Register(email: string, password: string, name: string, id: string, now: int) returns (ok: bool)
      modifies this
      ensures var r := Ops.Register(old(users), old(state), email, password, name, id, now);
        ok == r.ok && users == r.users && state == r.state
      ensures ok <==> !Ops.EmailTaken(old(users), email)
      ensures Ops.EmailsUnique(old(users)) ==> Ops.EmailsUnique(users)
    {
      Ops.RegisterEffect(users, state, email, password, name, id, now);
      if Ops.EmailsUnique(users) {
        Ops.RegisterKeepsEmailsUnique(users, state, email, password, name, id, now);
      }
      if FindIndex(users, (c: Credential) => c.email == email).Some? {
        return false;
      }
      var c := Credential(id, email, password, name, None, now);
      users := users + [c];
      Dispatch(Reducer.SetUser(Some(Ops.WithoutPassword(c))));
      ok := true;
    }

    method Logout()
      modifies this`state
      ensures state == Ops.Logout(old(state))
      ensures state.user.None? && state.notes == []
    {
      Dispatch(Reducer.SetUser(None));
      Dispatch(Reducer.SetNotes([]));
    }

    method CreateNote(title: string, content: string, id: string, now: int, color: string := DefaultColor)
      modifies this`state
      ensures state == Ops.CreateNote(old(state), id, title, content, color, now)
    {
      if state.user.None? {
        return;
      }
      var n := Ops.NewNote(state.user.value, id, title, content, color, now);
      Dispatch(Reducer.AddNote(n));
    }

    method UpdateNote(id: string, updates: NotePatch, now: int)
      modifies this`state
      ensures state == Reducer.Reduce(old(state), Reducer.UpdateNote(id, updates, now))
    {
      Dispatch(Reducer.UpdateNote(id, updates, now));
    }

    method DeleteNote(id: string)
      modifies this`state
      ensures state == Reducer.Reduce(old(state), Reducer.DeleteNote(id))
    {
      Dispatch(Reducer.DeleteNote(id));
    }

    method PermanentlyDeleteNote(id: string)
      modifies this`state
      ensures state == Reducer.Reduce(old(state), Reducer.DeleteNote(id))
    {
      DeleteNote(id);
    }

    method RestoreNote(id: string, now: int)
      modifies this`state
      ensures state == Ops.RestoreNote(old(state), id, now)
      ensures Ops.ArchiveTrashExclusive(old(state).notes) ==> Ops.ArchiveTrashExclusive(state.notes)
    {
      if Ops.ArchiveTrashExclusive(state.notes) {
        Ops.FlagOperationsKeepArchiveTrashExclusive(state, id, now);
      }
      UpdateNote(id, Ops.RestorePatch, now);
    }

    method TogglePin(id: string, now: int)
      modifies this`state
      ensures state == Ops.TogglePin(old(state), id, now)
      ensures Ops.ArchiveTrashExclusive(old(state).notes) ==> Ops.ArchiveTrashExclusive(state.notes)
    {
      if Ops.ArchiveTrashExclusive(state.notes) {
        Ops.FlagOperationsKeepArchiveTrashExclusive(state, id, now);
      }
      var note := Ops.FindNote(state.notes, id);
      if note.Some? {
        UpdateNote(id, Ops.PinPatch(!note.value.isPinned), now);
      }
    }

    method ToggleArchive(id: string, now: int)
      modifies this`state
      ensures state == Ops.ToggleArchive(old(state), id, now)
      ensures Ops.ArchiveTrashExclusive(old(state).notes) ==> Ops.ArchiveTrashExclusive(state.notes)
    {
      if Ops.ArchiveTrashExclusive(state.notes) {
        Ops.FlagOperationsKeepArchiveTrashExclusive(state, id, now);
      }
      var note := Ops.FindNote(state.notes, id);
      if note.Some? {
        UpdateNote(id, Ops.ArchivePatch(!note.value.isArchived), now);
      }
    }

    method MoveToTrash(id: string, now: int)
      modifies this`state
      ensures state == Ops.MoveToTrash(old(state), id, now)
      ensures Ops.ArchiveTrashExclusive(old(state).notes) ==> Ops.ArchiveTrashExclusive(state.notes)
    {
      if Ops.ArchiveTrashExclusive(state.notes) {
        Ops.FlagOperationsKeepArchiveTrashExclusive(state, id, now);
      }
      UpdateNote(id, Ops.TrashPatch, now);
    }

    method AddTag(noteId: string, tag: string, now: int)
      modifies this`state
      ensures state == Ops.AddTag(old(state), noteId, tag, now)
      ensures Ops.AllTagsDistinct(old(state).notes) ==> Ops.AllTagsDistinct(state.notes)
    {
      if Ops.AllTagsDistinct(state.notes) {
        Ops.AddTagKeepsTagsDistinct(state, noteId, tag, now);
      }
      var note := Ops.FindNote(state.notes, noteId);
      if note.Some? && tag !in note.value.tags {
        UpdateNote(noteId, Ops.TagsPatch(note.value.tags + [tag]), now);
      }
    }

    method RemoveTag(noteId: string, tag: string, now: int)
      modifies this`state
      ensures state == Ops.RemoveTag(old(state), noteId, tag, now)
    {
      var note := Ops.FindNote(state.notes, noteId);
      if note.Some? {
        UpdateNote(noteId, Ops.TagsPatch(Filter(note.value.tags, (t: string) => t != tag)), now);
      }
    }

    method SetSearchQuery(query: string)
      modifies this`state
      ensures state == old(state).(searchQuery := query)
    {
      Dispatch(Reducer.SetSearchQuery(query));
    }

    method ToggleDarkMode()
      modifies this`state
      ensures state == old(state).(darkMode := !old(state).darkMode)
    {
      Dispatch(Reducer.ToggleDarkMode);
    }

    method UpdateProfile(updates: UserPatch)
      modifies this
      ensures (users, state) == Ops.UpdateProfile(old(users), old(state), updates)
    {
      if state.user.None? {
        return;
      }
      var current := state.user.value;
      Dispatch(Reducer.SetUser(Some(Ops.MergeUser(current, updates))));
      var k := FindIndex(users, (c: Credential) => c.id == current.id);
      if k.Some? {
        users := users[k.value := Ops.MergeCredential(users[k.value], updates)];
      }
    }

    method GetFilteredNotes(mode: ViewMode) returns (r: seq<Note>)
      ensures r == Views.FilteredNotes(state, mode)
    {
      r := Views.FilteredNotes(state, mode);
    }

    method GetAllTags() returns (r: seq<string>)
      ensures r == Views.AllTags(state)
    {
      r := Views.AllTags(state);
    }
  }
}

=== FILE: text.dfy ===
/** The string built-ins the note store and the exporter use: `toLowerCase`
    (ASCII letters only), `String.prototype.includes` and the ordering that
    the default `Array.prototype.sort` applies to strings. */
module Text {
  import opened Collections

  predicate IsUpper(c: char) { 'A' <= c <= 'Z' }
  predicate IsLower(c: char) { 'a' <= c <= 'z' }
  predicate IsDigit(c: char) { '0' <= c <= '9' }

  /** Lower-cases an ASCII capital and leaves every other character alone. */
  function Lower(c: char): (d: char)
    ensures IsUpper(c) ==> IsLower(d) && d as int == c as int + 32
    ensures !IsUpper(c) ==> d == c
  {
    if IsUpper(c) then (c as int + 32) as char else c
  }

  /** `s.toLowerCase()`, restricted to ASCII case folding. */
  function LowerStr(s: string): (r: string)
    ensures |r| == |s|
    ensures forall i :: 0 <= i < |s| ==> r[i] == Lower(s[i])
  {
    Map(s, Lower)
  }

  /** `q` occurs in `s` starting at index `i`. */
  ghost predicate OccursAt(q: string, s: string, i: int) {
    0 <= i && i + |q| <= |s| && s[i..i + |q|] == q
  }

  ghost predicate IsSubstring(q: string, s: string) {
    exists i :: OccursAt(q, s, i)
  }

  /** `s.includes(q)`: true iff `q` is a contiguous substring of `s`. */
  function Includes(s: string, q: string): (b: bool)
    ensures b <==> IsSubstring(q, s)
  {
    if |q| > |s| then false
    else if s[..|q|] == q then
      assert OccursAt(q, s, 0);
      true
    else
      var b := Includes(s[1..], q);
      ShiftOccurrence(q, s);
      b
  }

  /** An occurrence in `s` other than at index 0 is an occurrence in `s[1..]`
      one place earlier, and back. */
  lemma ShiftOccurrence(q: string, s: string)
    requires |s| > 0
    requires |q| > |s| || s[..|q|] != q
    ensures IsSubstring(q, s) <==> IsSubstring(q, s[1..])
  {
    if IsSubstring(q, s) {
      var i :| OccursAt(q, s, i);
      assert i != 0;
      assert s[1..][i - 1..i - 1 + |q|] == s[i..i + |q|];
      assert OccursAt(q, s[1..], i - 1);
    }
    if IsSubstring(q, s[1..]) {
      var i :| OccursAt(q, s[1..], i);
      assert s[1..][i..i + |q|] == s[i + 1..i + 1 + |q|];
      assert OccursAt(q, s, i + 1);
    }
  }

  /** `a <= b` on strings: character by character (Unicode code points), a proper prefix first. */
  predicate LexLe(a: string, b: string) {
    if a == [] then true
    else if b == [] then false
    else if a[0] != b[0] then a[0] < b[0]
    else LexLe(a[1..], b[1..])
  }

  lemma {:induction false} LexLeTotal(a: string, b: string)
    ensures LexLe(a, b) || LexLe(b, a)
  {
    if a != [] && b != [] && a[0] == b[0] {
      LexLeTotal(a[1..], b[1..]);
    }
  }

  lemma {:induction false} LexLeTransitive(a: string, b: string, c: string)
    requires LexLe(a, b) && LexLe(b, c)
    ensures LexLe(a, c)
  {
    if a != [] && b != [] && c != [] && a[0] == b[0] && b[0] == c[0] {
      LexLeTransitive(a[1..], b[1..], c[1..]);
    }
  }

  /** The string order is one the stable sort accepts. */
  lemma LexLeIsTotalPreorder()
    ensures TotalPreorder(LexLe)
  {
    forall a: string, b: string
      ensures LexLe(a, b) || LexLe(b, a)
    {
      LexLeTotal(a, b);
    }
    forall a: string, b: string, c: string | LexLe(a, b) && LexLe(b, c)
      ensures LexLe(a, c)
    {
      LexLeTransitive(a, b, c);
    }
  }
}

=== FILE: types.dfy ===
/** The records of `src/types/index.ts`, with the credential row the store
    keeps beside them. Timestamps, which the application stores as ISO date
    strings, are integers here (milliseconds); ids are opaque strings. */
module Types {
  import opened Collections

  datatype User = User(
    id: string,
    email: string,
    name: string,
    avatar: Option<string>,
    createdAt: int)

  datatype Note = Note(
    id: string,
    title: string,
    content: string,
    color: string,
    tags: seq<string>,
    isPinned: bool,
    isArchived: bool,
    isInTrash: bool,
    reminder: Option<string>,
    createdAt: int,
    updatedAt: int,
    userId: string)

  datatype AppState = AppState(
    user: Option<User>,
    notes: seq<Note>,
    darkMode: bool,
    searchQuery: string,
    selectedTags: seq<string>)

  datatype ViewMode = All | Pinned | Archived | Trash

  /** A row of the registered-users table: a user record that still carries
      its plaintext password. `avatar` is only ever set by a profile update. */
  datatype Credential = Credential(
    id: string,
    email: string,
    password: string,
    name: string,
    avatar: Option<string>,
    createdAt: int)

  /** `Partial<Note>`: `None` for a key the update object does not have. An
      update may name a key that the merge then overwrites (`updatedAt`). */
  datatype NotePatch = NotePatch(
    id: Option<string>,
    title: Option<string>,
    content: Option<string>,
    color: Option<string>,
    tags: Option<seq<string>>,
    isPinned: Option<bool>,
    isArchived: Option<bool>,
    isInTrash: Option<bool>,
    reminder: Option<Option<string>>,
    createdAt: Option<int>,
    updatedAt: Option<int>,
    userId: Option<string>)

  /** `Partial<User>`. */
  datatype UserPatch = UserPatch(
    id: Option<string>,
    email: Option<string>,
    name: Option<string>,
    avatar: Option<Option<string>>,
    createdAt: Option<int>)

  /** The empty update object `{}`. */
  const NoChanges := NotePatch(None, None, None, None, None, None, None, None, None, None, None, None)

  /** The colour `createNote` uses when its caller gives none. */
  const DefaultColor := "#ffffff"

  /** The title `createNote` substitutes for an empty one. */
  const Untitled := "Untitled"
}

=== FILE: views.dfy ===
/** The two derived views of `src/contexts/AppContext.tsx`: `getFilteredNotes`
    and `getAllTags`. */
module Views {
  import opened Collections
  import opened Text
  import opened Types

  /** The note belongs to the session user (false when there is none). */
  predicate Owned(s: AppState, n: Note) {
    s.user.Some? && n.userId == s.user.value.id
  }

  /** The `switch (viewMode)`; its `default` branch is the `all` view. */
  predicate InMode(n: Note, mode: ViewMode) {
    match mode
    case Pinned => n.isPinned && !n.isInTrash && !n.isArchived
    case Archived => n.isArchived && !n.isInTrash
    case Trash => n.isInTrash
    case All => !n.isInTrash && !n.isArchived
  }

  /** The search test: the lower-cased query is included in the lower-cased
      title, content or some tag. */
  predicate MatchesQuery(n: Note, q: string) {
    var lq := LowerStr(q);
    || Includes(LowerStr(n.title), lq)
    || Includes(LowerStr(n.content), lq)
    || exists t :: t in n.tags && Includes(LowerStr(t), lq)
  }

  /** The sort comparator: pinned notes first, then the later `updatedAt`
      first. */
  function Compare(a: Note, b: Note): int {
    if a.isPinned && !b.isPinned then -1
    else if !a.isPinned && b.isPinned then 1
    else b.updatedAt - a.updatedAt
  }

  /** `a` may stay before `b` under the comparator. */
  predicate NoteLe(a: Note, b: Note) {
    Compare(a, b) <= 0
  }

  lemma NoteLeIsTotalPreorder()
    ensures TotalPreorder(NoteLe)
  {
  }

  /** `getFilteredNotes(viewMode)`: the session user's notes in the view,
      narrowed by the search query when it is not empty, then sorted. */
  function FilteredNotes(s: AppState, mode: ViewMode): seq<Note> {
    var inView := Filter(s.notes, (n: Note) => Owned(s, n) && InMode(n, mode));
    var found := if s.searchQuery != "" then Filter(inView, (n: Note) => MatchesQuery(n, s.searchQuery)) else inView;
    NoteLeIsTotalPreorder();
    Sort(found, NoteLe)
  }

  /** A note that `getFilteredNotes(mode)` returns, stated without the two
      filter passes. */
  predicate Qualifies(s: AppState, mode: ViewMode, n: Note) {
    Owned(s, n) && InMode(n, mode) && (s.searchQuery == "" || MatchesQuery(n, s.searchQuery))
  }

  /** The result is a permutation of exactly the qualifying notes: each one
      as often as it is in the list, and nothing else. */
  lemma FilteredNotesArePermutation(s: AppState, mode: ViewMode)
    ensures forall n :: multiset(FilteredNotes(s, mode))[n] == if Qualifies(s, mode, n) then multiset(s.notes)[n] else 0
  {
  }

  /** Every note shown qualifies. */
  lemma FilteredNotesQualify(s: AppState, mode: ViewMode)
    ensures forall n :: n in FilteredNotes(s, mode) ==> Qualifies(s, mode, n)
  {
    var r := FilteredNotes(s, mode);
    FilteredNotesArePermutation(s, mode);
    forall n | n in r
      ensures Qualifies(s, mode, n)
    {
      assert multiset(r)[n] > 0;
    }
  }

  /** With no session user the view is empty; every note shown is the
      session user's and belongs to the view. */
  lemma FilteredNotesOwnedAndInView(s: AppState, mode: ViewMode)
    ensures s.user.None? ==> FilteredNotes(s, mode) == []
    ensures forall n :: n in FilteredNotes(s, mode) ==> s.user.Some? && n.userId == s.user.value.id && InMode(n, mode)
  {
    FilteredNotesQualify(s, mode);
    if s.user.None? {
      FilteredNotesArePermutation(s, mode);
      assert multiset(FilteredNotes(s, mode)) == multiset{};
    }
  }

  /** What the search test means, in terms of substrings. */
  lemma MatchesQueryMeansSubstring(n: Note, q: string)
    ensures var lq := LowerStr(q);
      MatchesQuery(n, q) <==>
        || IsSubstring(lq, LowerStr(n.title))
        || IsSubstring(lq, LowerStr(n.content))
        || exists t :: t in n.tags && IsSubstring(lq, LowerStr(t))
  {
    var lq := LowerStr(q);
    if MatchesQuery(n, q) && !Includes(LowerStr(n.title), lq) && !Includes(LowerStr(n.content), lq) {
      var t :| t in n.tags && Includes(LowerStr(t), lq);
      assert IsSubstring(lq, LowerStr(t));
    }
    if exists t :: t in n.tags && IsSubstring(lq, LowerStr(t)) {
      var t :| t in n.tags && IsSubstring(lq, LowerStr(t));
      assert Includes(LowerStr(t), lq);
    }
  }

  /** With a non-empty query, every note shown contains the query as a
      substring of its title, content or one of its tags, ignoring ASCII
      case. */
  lemma FilteredNotesMatchQuery(s: AppState, mode: ViewMode)
    requires s.searchQuery != ""
    ensures forall n :: n in FilteredNotes(s, mode) ==>
      var q := LowerStr(s.searchQuery);
      || IsSubstring(q, LowerStr(n.title))
      || IsSubstring(q, LowerStr(n.content))
      || exists t :: t in n.tags && IsSubstring(q, LowerStr(t))
  {
    FilteredNotesQualify(s, mode);
    forall n | n in FilteredNotes(s, mode)
      ensures var q := LowerStr(s.searchQuery);
        || IsSubstring(q, LowerStr(n.title))
        || IsSubstring(q, LowerStr(n.content))
        || exists t :: t in n.tags && IsSubstring(q, LowerStr(t))
    {
      MatchesQueryMeansSubstring(n, s.searchQuery);
    }
  }

  /** Pinned notes come first, and within each group the later `updatedAt`
      comes first. */
  lemma FilteredNotesOrdered(s: AppState, mode: ViewMode)
    ensures var r := FilteredNotes(s, mode);
      forall i, j :: 0 <= i < j < |r| ==>
        && (r[j].isPinned ==> r[i].isPinned)
        && (r[i].isPinned == r[j].isPinned ==> r[i].updatedAt >= r[j].updatedAt)
  {
    var r := FilteredNotes(s, mode);
    assert SortedBy(r, NoteLe);
    forall i, j | 0 <= i < j < |r|
      ensures (r[j].isPinned ==> r[i].isPinned) && (r[i].isPinned == r[j].isPinned ==> r[i].updatedAt >= r[j].updatedAt)
    {
      assert NoteLe(r[i], r[j]);
    }
  }

  /** The notes `getAllTags` looks at: the session user's, outside the trash. */
  function LiveNotes(s: AppState): (r: seq<Note>)
    ensures forall n :: n in r <==> n in s.notes && Owned(s, n) && !n.isInTrash
  {
    Filter(s.notes, (n: Note) => Owned(s, n) && !n.isInTrash)
  }

  /** `.flatMap(note => note.tags)` over those notes. */
  function LiveTags(s: AppState): (r: seq<string>)
    ensures forall t :: t in r <==> exists n :: n in s.notes && Owned(s, n) && !n.isInTrash && t in n.tags
  {
    FlatMap(LiveNotes(s), (n: Note) => n.tags)
  }

  /** `[...new Set(allTags)].sort()` */
  function AllTags(s: AppState): seq<string> {
    LexLeIsTotalPreorder();
    Sort(Dedup(LiveTags(s)), LexLe)
  }

  /** Each live tag occurs once in the result, and nothing else does. */
  lemma AllTagsCounts(s: AppState)
    ensures forall t :: multiset(AllTags(s))[t] == if t in LiveTags(s) then 1 else 0
  {
  }

  /** The result is strictly increasing: sorted, with no tag twice. */
  lemma AllTagsStrictlyIncreasing(s: AppState)
    ensures var r := AllTags(s);
      forall i, j :: 0 <= i < j < |r| ==> LexLe(r[i], r[j]) && r[i] != r[j]
  {
    var r := AllTags(s);
    AllTagsCounts(s);
    assert SortedBy(r, LexLe);
    forall i, j | 0 <= i < j < |r|
      ensures r[i] != r[j]
    {
      DistinctFromMultiset(r, i, j);
    }
  }

  /** The result holds exactly the tags of the session user's notes outside
      the trash. */
  lemma AllTagsMembers(s: AppState)
    ensures forall t :: t in AllTags(s) <==> exists n :: n in s.notes && Owned(s, n) && !n.isInTrash && t in n.tags
  {
    var r := AllTags(s);
    AllTagsCounts(s);
    forall t
      ensures t in r <==> t in LiveTags(s)
    {
      assert t in r <==> multiset(r)[t] > 0;
    }
  }
}
